=== FILE: README.md ===
# Contabilidade client: spreadsheet grid and session model

A Dafny model of the browser client of an accounting back-office (`ContabilidadeApp` in
`frontend/main.js`). Almost all of the client is DOM wiring and REST calls. Two parts have
behaviour worth stating, and this project models both:

- **The spreadsheet grid.** `createSpreadsheetGrid` lays out a two-dimensional array of cell
  texts as a table. The column count comes from row 0, defaulting to 10. The row count comes
  from the array length, defaulting to 50. `getSpreadsheetData` rebuilds the array from the
  editable cells' `data-row`/`data-col` attributes. The DOM is abstracted as the column headers
  plus the body rows, each with its number and its editable cells. Each cell carries its two
  attributes and its text, and document order is row-major.
- **The session and routing state machine.** The controller keeps `token`, `user` and
  `currentSheetId`, and which of the login and main screens is shown. It handles login and
  logout, forces a logout on any 401 response, gates controls on the roles `admin` and
  `gerente`, and chooses PUT or POST when saving.

JavaScript semantics are modelled where the code depends on them:

- truthiness (`JsValues.Truthy`);
- sparse arrays, where writing past the end leaves holes (`JsArrays.Assign`);
- `parseInt` with no radix: leading white space, a sign, a `0x` prefix and the longest digit run;
- integer-to-string conversion;
- the 16-bit wrap of `String.fromCharCode`.

Each network call is an input: either a network failure, or a status code with a JSON body
(an object with an `id`, a list of sheets, or something that is not JSON).

Modules: `Wrappers`, `JsValues`, `JsArrays`, `Grid` (render), `ReadBack` (read-back and its
theorems), `Http` (requests and responses), `Session` (auth, `apiCall`, role gating), `Sheets`
(new, load and save sheet; save client), and `Controller` (the handlers as events of a state
machine, with its invariants). A handler runs as one event carrying the outcome of its network
call, except `saveSpreadsheet`. It reads the controller state both before and after its
`await`, so it is two events: the click sends the request, and the reply arrives later, possibly
after other events.

The model follows the code. It departs from it only for the three defects under "## Findings".
For each of those, the as-written behaviour is modelled and exhibited. The corrected definitions
are what the rest of the model uses: the event step function `Controller.Step`, and every member
marked "(corrected)" below. Through the corrected `newSpreadsheet`, this includes
`Sheets.LoadSpreadsheets`.

## Model

| member | source | states |
|---|---|---|
| `JsValues.IncludesIsMembership` | frontend/main.js:37 | `list.includes(v)` holds exactly when `v` is an element of `list` |
| `JsValues.ShowNat` | frontend/main.js:328 | the `data-row`/`data-col` attribute text of an index is a non-empty run of decimal digits, with a leading `0` only for zero itself |
| `JsValues.TrimStart` | frontend/main.js:343 | `parseInt` skips exactly the leading white space: the rest is a suffix, everything dropped is white space, and what remains does not start with white space |
| `JsValues.DigitRun` | frontend/main.js:343-344 | `parseInt` reads the longest prefix of digits: it is a prefix, all digits, and followed by a non-digit or the end |
| `JsValues.ParseShowNat` | frontend/main.js:343-344 | parsing the attribute written for index `n` (line 328) gives `n` back |
| `JsValues.ParseShowInt` | frontend/main.js:358 | parsing the decimal text of any integer id gives the id back |
| `JsArrays.AsIndex` | frontend/main.js:346-347 | a parsed key names an array element exactly when it is a number in `0 .. 2^32-2`; NaN and negative keys name plain properties |
| `JsArrays.Assign` | frontend/main.js:346-347 | `a[k] = v` makes the array `max(len, k+1)` long, puts `v` at `k`, keeps every other element, and leaves holes past the old end |
| `Grid.CellValue` | frontend/main.js:327 | the truthiness test on `data[i][j]` gives the same text as a plain lookup with `''` for a missing index |
| `Grid.ColumnLabelIsLetter` | frontend/main.js:318 | the header of column `j` is one of `A`..`Z` exactly when `j mod 65536 < 26`, and it is the `j`-th letter for `j < 26` |
| `Grid.CreateSpreadsheetGrid` | frontend/main.js:309-336 | `\|data[0]\|` columns if `data` is non-empty, else 10; `\|data\|` rows if non-empty, else 50; row `i` is numbered `i+1`; cell `(i,j)` carries attributes `i` and `j` and text `data[i][j]`, or `''` where that index does not exist |
| `Grid.EditableCellCount` | frontend/main.js:324-331 | a rendered table has rows × columns editable cells |
| `Grid.Normalise` | frontend/main.js:316-328 | the grid a table shows: rows cut or padded with `''` to row 0's width, `Rows` rows, and no rows at all when there are no columns |
| `Grid.NormaliseRectangular` | frontend/main.js:316-328 | a non-empty rectangular sheet whose rows are non-empty is shown exactly as it is |
| `Grid.NormaliseIdempotent` | frontend/main.js:316-328 | when there is a column, normalising a shown grid changes nothing |
| `Grid.RenderNormalised` | frontend/main.js:309-336 | when there is a column, rendering the shown grid draws the same table as rendering the data |
| `ReadBack.WriteCell` | frontend/main.js:346-347 | after `if (!data[row]) data[row] = []` and the cell write, row `row` exists and holds the text at `col` when `col` is an array index; every other cell of that row, and every other row, is as before (a new row starts empty) |
| `ReadBack.Store` | frontend/main.js:342-348 | a cell whose `data-row` does not parse to an array index leaves the array's elements unchanged |
| `ReadBack.Densify` | frontend/main.js:350 | the read-back array converts to a plain grid exactly when it has no holes, and the conversion loses nothing |
| `ReadBack.DensifyEmbed` | frontend/main.js:350 | a grid without holes converts back to itself |
| `ReadBack.ReadBackIsTexts` | frontend/main.js:338-351 | for any table laid out as the render lays it out, whatever has been typed since, `getSpreadsheetData` gives the rows × columns array of the texts on screen, with no holes; with no columns it gives `[]` |
| `ReadBack.RenderedGridBody` | frontend/main.js:309-336 | the render lays out such a table, and its texts are the normal form of the data |
| `ReadBack.ReadBackOfRender` | frontend/main.js:309-351 | reading back a freshly rendered table gives the normal form of the data: rows are truncated or padded to row 0's width, and the result is `[]` when there are no columns |
| `ReadBack.RenderReadBackFixedPoint` | frontend/main.js:309-351 | when there is a column, render then read back then render again draws the same table |
| `ReadBack.ReadBackRectangular` | frontend/main.js:309-351 | a non-empty rectangular sheet with a column reads back equal to itself |
| `Session.IsPrivileged` | frontend/main.js:37 | privileged means the role is exactly `admin` or `gerente` |
| `Session.ShowMainScreenAsWritten` | frontend/main.js:31-40 | shows the main screen; the admin menu ends up displayed if it already was or the role is privileged |
| `Session.ShowMainScreen` | frontend/main.js:31-40 | shows the main screen with the admin menu displayed exactly for `admin`/`gerente`, and changes nothing else |
| `Session.ShowMainScreenAgreesWhenMenuHidden` | frontend/main.js:31-40 | the corrected screen switch agrees with the one as written whenever the admin menu is not already displayed, so the correction matters only in the stale-menu case |
| `Session.CheckAuth` | frontend/main.js:18-24 | (corrected) the main screen is selected exactly when the token and `user.id` are truthy; the session is untouched |
| `Session.Logout` | frontend/main.js:105-111 | the token becomes `null`, the user `{}`, the login screen is shown, and the sheet state is kept |
| `Session.LogoutIdempotent` | frontend/main.js:105-111 | logging out twice is logging out once |
| `Session.LogoutThenCheckAuth` | frontend/main.js:18-24 | after a logout the startup check selects the login screen |
| `Session.HandleLogin` | frontend/main.js:89-102 | (corrected) an ok reply stores its token and user and shows the main screen; a failed or unreachable login changes nothing |
| `Session.LoginThenCheckAuth` | frontend/main.js:89-94 | a login that yields a truthy token and user id is also accepted by the startup check |
| `Session.LoggedOutHeader` | frontend/main.js:145 | after a logout, API calls carry `Authorization: Bearer null` |
| `Session.UnauthorizedForcesLogin` | frontend/main.js:154-159 | a 401 always clears token and user, shows the login screen (also after the next startup check) and raises an error; any other status is returned unchanged with the state untouched; a network failure propagates |
| `Session.ClientRowActions` | frontend/main.js:196-199 | every client row has an edit button; it has a delete button exactly for `admin`/`gerente` |
| `Session.LoadUsers` | frontend/main.js:511-525 | for `admin`/`gerente` the user list becomes the current user alone; for any other role the handler returns early and the list already on screen is left as it was |
| `Session.StaleAdminMenu` | frontend/main.js:36-39 | as written, admin login, logout and then a plain user's login leave the admin menu displayed for the plain user |
| `Session.LoginKeepsMenuMatchingRole` | frontend/main.js:31-40 | with the corrected screen switch, login, startup check and logout keep the admin menu matching the role |
| `Sheets.NewSheetHasNoCells` | frontend/main.js:303-307 | as written, the new sheet renders `[[]]`: no column headers, one row, no editable cell, and a read-back of `[]` |
| `Sheets.NewSpreadsheet` | frontend/main.js:303-307 | (corrected) a new sheet has no id, is named `Nova Planilha`, and shows 50 rows of 10 empty cells; the session is untouched |
| `Sheets.NewSheetIsBlankGrid` | frontend/main.js:303-307 | (corrected) the new sheet has 500 editable cells and reads back as 50 × 10 empty texts |
| `Sheets.LoadThenSave` | frontend/main.js:378-382 | after loading a sheet, saving sends a PUT exactly when its id is truthy, with its name and its data in normal form |
| `Sheets.LoadSpreadsheets` | frontend/main.js:287-301 | (corrected) the first listed sheet is loaded. An empty list, or a JSON object whose `length` is undefined, starts a new sheet (the corrected 50 × 10 one). A 401 logs out. A network or JSON failure changes nothing. Either a sheet is put on screen or the sheet and its id are kept |
| `Sheets.SaveSpreadsheetRequest` | frontend/main.js:353-364 | PUT `/spreadsheets/{id}` exactly when `currentSheetId` is truthy, else POST `/spreadsheets`, with the sheet name, the read-back grid and the bearer header |
| `Sheets.SheetPathNamesId` | frontend/main.js:358 | for a numeric id, the PUT path ends in a segment that parses back to that id |
| `Sheets.SaveReplyAsWritten` | frontend/main.js:361-375 | as written, the reply re-tests `currentSheetId` as it is when the reply arrives: it changes only when that is falsy and the response is ok, and then becomes the returned id; a 401 logs out; nothing else changes |
| `Sheets.StaleReplyRenamesNewSheet` | frontend/main.js:358-370 | as written, from any state: start a new sheet while a save (PUT or POST) is in flight, and an ok reply carrying an id gives the blank sheet that id, so its next save is a PUT to that id |
| `Sheets.SaveReply` | frontend/main.js:361-375 | (corrected) `currentSheetId` changes only on an ok reply to a POST sent from the sheet still on screen while it has no id, and then becomes the returned id; a 401 logs out; nothing else changes |
| `Sheets.ReplyAfterNewSheetIgnored` | frontend/main.js:358-370 | (corrected) whatever the reply to a save sent before a new sheet was started, short of a 401, the new sheet keeps no id and its next save is a POST |
| `Sheets.SecondSaveUpdates` | frontend/main.js:358-371 | (corrected) after a first save returns a truthy id, the next save is a PUT to that id with the same payload |
| `Sheets.SaveWithoutIdPostsAgain` | frontend/main.js:366-371 | (corrected) if the first save's response has no `id`, the next save is another POST |
| `Sheets.SaveClientRequest` | frontend/main.js:240-249 | PUT `/clients/{id}` exactly when the hidden id field is non-empty, else POST `/clients`, with the form fields |
| `Sheets.SaveClient` | frontend/main.js:246-258 | saving a client changes the controller state only through a 401, which logs out |
| `Controller.EditCell` | frontend/main.js:328 | typing into an editable cell changes that cell's text and nothing else in the table |
| `Controller.EditKeepsLayout` | frontend/main.js:328 | typing keeps the rendered layout and updates exactly entry `(row, col)` of the texts on screen |
| `Controller.RenderLaysOut` | frontend/main.js:309-336 | every render of a JavaScript array of arrays yields a laid-out grid |
| `Controller.InitialInvariant` | frontend/main.js:2-24 | (corrected) the state the constructor builds from any stored token and user satisfies the invariant, and so does the state after `init`'s startup check, which shows the main screen exactly when the token and `user.id` are truthy |
| `Controller.StepPreservesInvariant` | frontend/main.js:42-73 | (corrected) every event, retyping the sheet name included, keeps the admin menu matching the role, the grid laid out as rendered, and every save in flight a PUT or POST sent from the current sheet or an earlier one, with a PUT from the current sheet targeting that sheet's own id |
| `Controller.SessionChangesOnlyAtLoginOrLogout` | frontend/main.js:89-157 | (corrected) token and user change only on an ok login, a logout click or a 401 delivered to a call in flight; the last two always clear them |
| `Controller.SheetIdChanges` | frontend/main.js:303-382 | (corrected) `currentSheetId` changes only when a sheet is put on screen, or on the ok reply to a POST sent from the sheet on screen while it had no id |
| `Controller.SaveReplyAgreesOnSameSheet` | frontend/main.js:358-370 | for a save in flight sent from the sheet still on screen, the corrected reply agrees with the reply as written, so the correction matters only when another sheet was put on screen meanwhile |
| `Controller.SaveSendsTypedName` | frontend/main.js:354-364 | retyping the sheet-name field changes only the name, and the next save sends the typed name |
| `Controller.SaveSendsScreenTexts` | frontend/main.js:353-364 | clicking save puts one request in flight, changes nothing else, and that request carries exactly the texts on screen, including everything typed since the render |

## Findings

| source | as written | input that shows it | evidently intended | confidence | as-written member | corrected member |
|---|---|---|---|---|---|---|
| frontend/main.js:36-39 | `showMainScreen` displays the admin menu for `admin`/`gerente` but never hides it for other roles, and `logout` does not hide it either | on one page load, log in as an admin, log out, then log in as a user with role `user`: the admin menu is still displayed | the menu shows only for `admin`/`gerente`, as the comment on line 36 says | medium, not executed; assumes the page starts with the menu hidden | `Session.StaleAdminMenu` | `Session.ShowMainScreen` |
| frontend/main.js:306 | `newSpreadsheet` renders `[[]]`; `[]` is truthy, so the grid gets 0 columns and no editable cell | click the new-sheet button: the table has one numbered row and nowhere to type, and saving sends `data: []` | the default blank grid of 50 rows by 10 columns, which `createSpreadsheetGrid([])` draws | medium, not executed | `Sheets.NewSheetHasNoCells` | `Sheets.NewSpreadsheet` |
| frontend/main.js:358-370 | `saveSpreadsheet` chooses PUT or POST from `currentSheetId` before its `await`, then tests `currentSheetId` again when the reply arrives and adopts the reply's `id` if that is falsy | save a sheet that has no id (POST); click the new-sheet button before the reply; the reply `{id: 8}` gives the blank sheet the id 8, and saving it overwrites sheet 8. The same happens to a PUT `/spreadsheets/7` whose reply carries `id: 7` | a reply's `id` goes only to the sheet that was created by that POST, if it is still on screen | medium, not executed; needs a reply slower than a click, and for the PUT case a reply that carries `id` | `Sheets.StaleReplyRenamesNewSheet` | `Sheets.SaveReply` |

## Left out

- All `fetch` calls, `localStorage` persistence and `init`'s dashboard load. They are I/O; each network result is an input of the handler that awaits it. The constructor's read of the stored token and user is abstracted as the parameters of `Controller.Initial`.
- Modals, `showSection` navigation, toast messages and their 3-second `setTimeout`. These are DOM glue with no effect on the modelled state.
- HTML templating of the client, payment, document and user lists. Only the role gate inside them is modelled (`ClientRowActions`, `LoadUsers`).
- `loadClients`, `editClient`, `deleteClient`, `loadClientsForDocuments`, `loadPayments`, `createPayment`, `saveUser` and `loadDashboard`. They only call the API through `apiCall` and render. Their effect on the session, a forced logout on 401, is the `OtherApiCall` event. The role gate inside `loadClients` is `Session.ClientRowActions`.
- `uploadDocument` and `downloadBillet`. `uploadDocument` uses `fetch` directly, and `downloadBillet` only opens a window (lines 506-508). Neither sends the bearer header through `apiCall` or ever logs out, so neither changes the modelled state.
- Dates (`toLocaleDateString`), `parseFloat` of amounts, and the N+1 payment loop. These are locale formatting, floating point and a sequential remote loop.
- HTML markup in cell texts. The render interpolates texts into `innerHTML`, and the model assumes `textContent` returns the inserted text. A text containing tags or entities would read back differently.
- Non-string cell values such as numbers, `null` rows, or rows that are not arrays. The sheet data is modelled as arrays of strings.
- JavaScript numbers are modelled as integers. NaN ids, fractional ids and the exponent notation of numbers at or above 10^21 are not modelled. `parseInt` precision above 2^53 is not modelled either, because only array indices are parsed.
- Objects as JSON values, other than the user record's four fields and a response's `id`. A login reply without `user` would make `this.user` undefined, and the later property access would throw. That path is not modelled.
- The `...options` spread in `apiCall`, which would replace the whole `headers` object if a caller passed `headers`. No caller does.
- `Grid.ColumnLabel` yields the UTF-16 code unit as a number, not a character, because the wrapped code can be a lone surrogate.
- `ReadBack.ReadBackOfRender`, `ReadBack.RenderReadBackFixedPoint` and `ReadBack.ReadBackRectangular` require `IsJsGrid`: lengths of at most 2^32-1. Every JavaScript array meets this bound.
- Sheets.LoadSpreadsheets: for an empty list it draws the corrected 50 × 10 new sheet, not the as-written `[[]]` that line 296 reaches through `newSpreadsheet`. The as-written new sheet is `Sheets.NewSpreadsheetAsWritten`, and `Sheets.NewSheetHasNoCells` states what it draws.
- Sheets.SaveReply: the second `await` in `saveSpreadsheet`, on `response.json()` (line 369), is part of the reply event. Another handler running between the test on line 368 and the assignment on line 370 is not modelled.
- `App.sheetEpoch` has no counterpart in the controller object. Only the corrected save path uses it (`Sheets.SendSave`, `Sheets.SaveReply` and the controller's invariant), to recognise the sheet a save was sent from.
- Controller.Initial: the page is assumed to start on the login screen, with the admin menu hidden, an empty sheet-name field and no grid. The HTML page is not part of this model.
- backend/app.py and backend/models.py are not part of this model. They are thin Flask routes and ORM declarations.

=== FILE: controller.dfy ===
/**
 * The controller as an event-driven state machine. A handler whose state
 * change happens after its network call settles runs on one event that
 * carries the outcome of the call. `saveSpreadsheet` also reads the state
 * before its `await`, so it is split in two: the click sends the request
 * and leaves it in flight, and a later event delivers the reply, with any
 * other events in between.
 */
module Controller {
  import opened JsValues
  import opened JsArrays
  import opened Grid
  import opened ReadBack
  import opened Http
  import opened Session
  import opened Sheets

  /** The controller object with the sheet saves still awaiting their reply. */
  datatype State = State(app: App, pending: seq<PendingSave>)

  datatype Event =
    | Startup                                   // `init`: the startup `checkAuth`
    | SubmitLogin(reply: LoginReply)
    | ClickLogout
    | ClickNewSheet
    | OpenSheets(fetched: Fetched)              // the spreadsheet section: `loadSpreadsheets`
    | TypeInCell(row: nat, col: nat, text: string)
    | TypeSheetName(name: string)               // editing the `sheet-name` field
    | ClickSaveSheet                            // `saveSpreadsheet` up to its `await`
    | SaveSheetReply(k: nat, fetched: Fetched)  // the reply to the `k`-th save in flight
    | SubmitClient(fetched: Fetched)
    | OtherApiCall(fetched: Fetched)            // any other handler going through `apiCall`

  /** Typing into the editable cell at `row`, `col`; there is nothing to type into elsewhere. */
  function EditCell(t: Table, row: nat, col: nat, text: string): (r: Table)
    ensures r.columnLabels == t.columnLabels && |r.rows| == |t.rows|
    ensures forall i :: 0 <= i < |r.rows| ==>
              r.rows[i].number == t.rows[i].number && |r.rows[i].cells| == |t.rows[i].cells|
    ensures forall i, j :: 0 <= i < |r.rows| && 0 <= j < |r.rows[i].cells| ==>
              r.rows[i].cells[j] == if i == row && j == col then t.rows[i].cells[j].(text := text)
                                    else t.rows[i].cells[j]
  {
    if row < |t.rows| && col < |t.rows[row].cells| then
      var target := t.rows[row];
      var cell := target.cells[col].(text := text);
      t.(rows := t.rows[row := target.(cells := target.cells[col := cell])])
    else t
  }

  function Step(s: State, e: Event): State
  {
    var a := s.app;
    match e
    case Startup => s.(app := CheckAuth(a))
    case SubmitLogin(reply) => s.(app := HandleLogin(a, reply))
    case ClickLogout => s.(app := Logout(a))
    case ClickNewSheet => s.(app := NewSpreadsheet(a))
    case OpenSheets(fetched) => s.(app := LoadSpreadsheets(a, fetched))
    case TypeInCell(row, col, text) => s.(app := a.(grid := EditCell(a.grid, row, col, text)))
    case TypeSheetName(name) => s.(app := a.(sheetName := name))
    case ClickSaveSheet => s.(pending := s.pending + [SendSave(a)])
    case SaveSheetReply(k, fetched) =>
      if k < |s.pending| then State(SaveReply(a, s.pending[k], fetched), s.pending[..k] + s.pending[k + 1..])
      else s
    case SubmitClient(fetched) => s.(app := SaveClient(a, fetched))
    case OtherApiCall(fetched) => s.(app := ApiCall(a, fetched).0)
  }

  /** Sheet data arriving from the API is a JavaScript array of arrays. */
  predicate WellFormedEvent(e: Event)
  {
    e.OpenSheets? && e.fetched.Received? && e.fetched.response.body.SheetList? ==>
      forall k :: 0 <= k < |e.fetched.response.body.list| ==> IsJsGrid(e.fetched.response.body.list[k].data)
  }

  /** The grid on screen is laid out as the render lays it out. */
  predicate GridLaidOut(t: Table)
  {
    IsGridBody(t.rows, |t.columnLabels|) && |t.rows| <= MaxLength && |t.columnLabels| <= MaxLength
  }

  /**
   * Every save in flight is a PUT or a POST sent from this sheet or an
   * earlier one, and one sent from this sheet as a PUT targets the id this
   * sheet still has.
   */
  predicate PendingMatchesSheet(s: State)
  {
    forall k :: 0 <= k < |s.pending| ==>
      (s.pending[k].request.verb == PUT || s.pending[k].request.verb == POST) &&
      s.pending[k].epoch <= s.app.sheetEpoch &&
      (s.pending[k].epoch == s.app.sheetEpoch && s.pending[k].request.verb == PUT ==>
         Truthy(s.app.currentSheetId) && s.pending[k].request.path == SheetPath(s.app.currentSheetId))
  }

  predicate Invariant(s: State)
  {
    MenuMatchesRole(s.app) && GridLaidOut(s.app.grid) && PendingMatchesSheet(s)
  }

  /**
   * The state the constructor builds from the token and user kept in
   * `localStorage`: no sheet id, the login screen with the admin menu
   * hidden as the page starts, an empty grid and nothing in flight.
   */
  function Initial(token: JsValue, user: User): State
  {
    State(App(token, user, Null, LoginScreen, false, "", Table([], []), 0), [])
  }

  /** The invariant holds from the start, and still after `init`'s startup check. */
  lemma InitialInvariant(token: JsValue, user: User)
    ensures Invariant(Initial(token, user))
    ensures Invariant(Step(Initial(token, user), Startup))
    ensures Step(Initial(token, user), Startup).app.screen == MainScreen <==> Truthy(token) && Truthy(user.id)
  {
  }

  lemma RenderLaysOut(data: seq<seq<string>>)
    requires IsJsGrid(data)
    ensures GridLaidOut(CreateSpreadsheetGrid(data))
  {
    RenderedGridBody(data);
  }

  /** Typing keeps the layout and changes the text of the one cell typed into. */
  lemma EditKeepsLayout(t: Table, row: nat, col: nat, text: string)
    requires GridLaidOut(t)
    ensures GridLaidOut(EditCell(t, row, col, text))
    ensures row < |t.rows| && col < |t.columnLabels| ==>
              Texts(EditCell(t, row, col, text).rows) == Texts(t.rows)[row := Texts(t.rows)[row][col := text]]
  {
    var r := EditCell(t, row, col, text);
    assert forall i :: 0 <= i < |r.rows| ==> r.rows[i].cells == t.rows[i].cells || i == row;
    forall i | 0 <= i < |r.rows|
      ensures CellsOfRow(r.rows[i].cells, i)
    {
      assert CellsOfRow(t.rows[i].cells, i);
    }
    if row < |t.rows| && col < |t.columnLabels| {
      var g := Texts(r.rows);
      var h := Texts(t.rows)[row := Texts(t.rows)[row][col := text]];
      assert |g| == |h|;
      forall i | 0 <= i < |g|
        ensures g[i] == h[i]
      {
        assert |g[i]| == |h[i]|;
      }
    }
  }

  /**
   * Every handler keeps the admin menu matching the role, the grid laid out
   * as rendered, and the saves in flight consistent with the sheet on screen.
   */
  lemma StepPreservesInvariant(s: State, e: Event)
    requires Invariant(s) && WellFormedEvent(e)
    ensures Invariant(Step(s, e))
  {
    var a := s.app;
    match e
    case Startup =>
    case SubmitLogin(reply) =>
    case ClickLogout =>
    case ClickNewSheet => RenderLaysOut([]);
    case OpenSheets(fetched) =>
      RenderLaysOut([]);
      if fetched.Received? && fetched.response.body.SheetList? && |fetched.response.body.list| > 0 {
        RenderLaysOut(fetched.response.body.list[0].data);
      }
    case TypeInCell(row, col, text) => EditKeepsLayout(a.grid, row, col, text);
    case TypeSheetName(name) =>
    case ClickSaveSheet =>
    case SaveSheetReply(k, fetched) =>
      if k < |s.pending| {
        var rest := s.pending[..k] + s.pending[k + 1..];
        assert forall m :: 0 <= m < |rest| ==> rest[m] in s.pending;
      }
    case SubmitClient(fetched) =>
    case OtherApiCall(fetched) =>
  }

  /** Whether an event delivers an unauthorized response to a call in flight. */
  predicate Unauthorized(s: State, e: Event)
  {
    (e.OpenSheets? || (e.SaveSheetReply? && e.k < |s.pending|) || e.SubmitClient? || e.OtherApiCall?) &&
    e.fetched.Received? && e.fetched.response.status == 401
  }

  /**
   * The token and user change only on a successful login, a logout click or
   * an unauthorized response, and the last two always clear them.
   */
  lemma SessionChangesOnlyAtLoginOrLogout(s: State, e: Event)
    ensures var r := Step(s, e).app;
            (r.token != s.app.token || r.user != s.app.user) ==>
              (e.SubmitLogin? && e.reply.LoginReply? && e.reply.ok) || e.ClickLogout? || Unauthorized(s, e)
    ensures e.ClickLogout? || Unauthorized(s, e) ==>
              var r := Step(s, e).app;
              r.token == Null && r.user == NoUser && r.screen == LoginScreen
  {
  }

  /**
   * `currentSheetId` changes only when a sheet is put on screen, or on the
   * successful reply to a POST sent from the very sheet on screen while it
   * still had no id: an id never passes from one sheet to another.
   */
  lemma SheetIdChanges(s: State, e: Event)
    ensures var r := Step(s, e).app;
            r.currentSheetId != s.app.currentSheetId ==>
              ((e.ClickNewSheet? || e.OpenSheets?) && r.sheetEpoch == s.app.sheetEpoch + 1) ||
              (e.SaveSheetReply? && e.k < |s.pending| &&
               s.pending[e.k].request.verb == POST && s.pending[e.k].epoch == s.app.sheetEpoch &&
               !Truthy(s.app.currentSheetId) && e.fetched.Received? && IsOk(e.fetched.response.status))
  {
  }

  /**
   * The corrected reply differs from the reply as written only when the
   * sheet it was sent from is no longer on screen: for a save sent from the
   * sheet on screen, the two agree.
   */
  lemma SaveReplyAgreesOnSameSheet(s: State, k: nat, fetched: Fetched)
    requires PendingMatchesSheet(s) && k < |s.pending| && s.pending[k].epoch == s.app.sheetEpoch
    ensures SaveReply(s.app, s.pending[k], fetched) == SaveReplyAsWritten(s.app, fetched)
  {
    assert s.pending[k].request.verb == PUT ==> Truthy(s.app.currentSheetId);
  }

  /** The name typed into the sheet-name field is the name the next save sends; nothing else changes. */
  lemma SaveSendsTypedName(s: State, name: string)
    ensures var t := Step(s, TypeSheetName(name));
            t == s.(app := s.app.(sheetName := name)) &&
            Step(t, ClickSaveSheet).pending[|s.pending|].request.payload.name == name
  {
    ClickSaveAppends(Step(s, TypeSheetName(name)));
  }

  /** Clicking save only adds the save it sends to those in flight. */
  lemma ClickSaveAppends(s: State)
    ensures Step(s, ClickSaveSheet) == State(s.app, s.pending + [SendSave(s.app)])
  {
  }

  lemma SaveRequestCarriesTexts(a: App)
    requires GridLaidOut(a.grid) && |a.grid.columnLabels| > 0
    ensures SendSave(a).request.payload.data == Embed(Texts(a.grid.rows))
  {
    ReadBackIsTexts(a.grid.rows, |a.grid.columnLabels|);
  }

  /** Saving sends exactly the texts on screen, whatever has been typed since the render. */
  lemma SaveSendsScreenTexts(s: State)
    requires Invariant(s) && |s.app.grid.columnLabels| > 0
    ensures var r := Step(s, ClickSaveSheet);
            r.app == s.app && |r.pending| == |s.pending| + 1 &&
            r.pending[|s.pending|].request.payload.data == Embed(Texts(s.app.grid.rows))
  {
    ClickSaveAppends(s);
    SaveRequestCarriesTexts(s.app);
  }
}

=== FILE: grid.dfy ===
/**
 * The spreadsheet editor's grid: how `createSpreadsheetGrid` lays out a
 * two-dimensional array of cell texts as a table. The DOM is abstracted as
 * the column headers, the row headers and the row-major list of editable
 * cells, each carrying its `data-row` and `data-col` attributes and its text.
 */
module Grid {
  import opened JsValues
  import opened JsArrays

  const DefaultColumns: nat := 10
  const DefaultRows: nat := 50

  /** An editable cell: its `data-row` and `data-col` attributes and its text. */
  datatype Cell = Cell(dataRow: string, dataCol: string, text: string)

  /** A body row of the table: the row number in its header cell, then its editable cells. */
  datatype TableRow = TableRow(number: nat, cells: seq<Cell>)

  /** The column header character codes and the body rows. */
  datatype Table = Table(columnLabels: seq<nat>, rows: seq<TableRow>)

  /** The sheet data is a JavaScript array of arrays, so its lengths are array lengths. */
  predicate IsJsGrid(data: seq<seq<string>>)
  {
    |data| <= MaxLength && (|data| > 0 ==> |data[0]| <= MaxLength)
  }

  /** `data[0] ? data[0].length : 10`; every array, even `[]`, is truthy. */
  function Columns(data: seq<seq<string>>): nat
  {
    if |data| > 0 then |data[0]| else DefaultColumns
  }

  /** `data.length || 50` */
  function Rows(data: seq<seq<string>>): nat
  {
    if |data| != 0 then |data| else DefaultRows
  }

  /** `data[i][j]` where both indices exist, the empty text otherwise. */
  function Lookup(data: seq<seq<string>>, i: nat, j: nat): string
  {
    if i < |data| && j < |data[i]| then data[i][j] else ""
  }

  /** `data[i] && data[i][j] ? data[i][j] : ''` */
  function CellValue(data: seq<seq<string>>, i: nat, j: nat): (v: string)
    ensures v == Lookup(data, i, j)
  {
    if i < |data| && j < |data[i]| && data[i][j] != "" then data[i][j] else ""
  }

  /** `String.fromCharCode(65 + j)`: the code is reduced modulo 2^16. */
  function ColumnLabel(j: nat): (code: nat)
    ensures code < 0x1_0000
  {
    (65 + j) % 0x1_0000
  }

  /** Column headers read 'A' to 'Z' for the first 26 columns only. */
  lemma ColumnLabelIsLetter(j: nat)
    ensures 'A' as nat <= ColumnLabel(j) <= 'Z' as nat <==> j % 0x1_0000 < 26
    ensures j < 26 ==> ColumnLabel(j) == 'A' as nat + j
  {
    var r := j % 0x1_0000;
    assert j == (j / 0x1_0000) * 0x1_0000 + r;
    assert (65 + j) % 0x1_0000 == (65 + r) % 0x1_0000 by {
      assert 65 + j == (j / 0x1_0000) * 0x1_0000 + (65 + r);
    }
    if r >= 0x1_0000 - 65 {
      assert (65 + r) % 0x1_0000 == 65 + r - 0x1_0000;
    }
  }

  function RenderCell(data: seq<seq<string>>, i: nat, j: nat): Cell
  {
    Cell(ShowNat(i), ShowNat(j), CellValue(data, i, j))
  }

  /** Body row `i`: its number `i + 1` and its first `cols` cells. */
  function RenderRow(data: seq<seq<string>>, i: nat, cols: nat): TableRow
  {
    TableRow(i + 1, seq(cols, j requires 0 <= j < cols => RenderCell(data, i, j)))
  }

  /**
   * `createSpreadsheetGrid(data)`: a header of column letters, then one row
   * per sheet row with its number and one editable cell per column.
   */
  function CreateSpreadsheetGrid(data: seq<seq<string>>): (t: Table)
    ensures |t.columnLabels| == (if |data| > 0 then |data[0]| else 10)
    ensures forall j :: 0 <= j < |t.columnLabels| ==> t.columnLabels[j] == ColumnLabel(j)
    ensures |t.rows| == (if |data| > 0 then |data| else 50)
    ensures forall i :: 0 <= i < |t.rows| ==>
              t.rows[i].number == i + 1 && |t.rows[i].cells| == |t.columnLabels|
    ensures forall i, j :: 0 <= i < |t.rows| && 0 <= j < |t.rows[i].cells| ==>
              t.rows[i].cells[j] == Cell(ShowNat(i), ShowNat(j), Lookup(data, i, j))
  {
    var cols := Columns(data);
    Table(seq(cols, j requires 0 <= j => ColumnLabel(j)),
          seq(Rows(data), i requires 0 <= i => RenderRow(data, i, cols)))
  }

  /** `querySelectorAll('td[contenteditable="true"]')`: the editable cells in document order. */
  function EditableCells(rows: seq<TableRow>): seq<Cell>
  {
    if rows == [] then [] else EditableCells(rows[..|rows| - 1]) + rows[|rows| - 1].cells
  }

  lemma {:induction false} EditableCellCountRows(rows: seq<TableRow>, cols: nat)
    requires forall i :: 0 <= i < |rows| ==> |rows[i].cells| == cols
    ensures |EditableCells(rows)| == |rows| * cols
  {
    if rows != [] {
      var n := |rows|;
      EditableCellCountRows(rows[..n - 1], cols);
      assert n * cols == (n - 1) * cols + cols;
    }
  }

  /** A rendered table holds one editable cell per row and column. */
  lemma EditableCellCount(data: seq<seq<string>>)
    ensures |EditableCells(CreateSpreadsheetGrid(data).rows)| == Rows(data) * Columns(data)
  {
    var t := CreateSpreadsheetGrid(data);
    EditableCellCountRows(t.rows, Columns(data));
  }

  /**
   * The rectangular grid a table rendered from `data` shows: every row cut
   * or padded with empty texts to the width of row 0, and no rows at all
   * when there are no columns.
   */
  function Normalise(data: seq<seq<string>>): (g: seq<seq<string>>)
    ensures Columns(data) == 0 ==> g == []
    ensures Columns(data) > 0 ==> |g| == Rows(data)
    ensures forall i :: 0 <= i < |g| ==> |g[i]| == Columns(data)
    ensures forall i, j :: 0 <= i < |g| && 0 <= j < |g[i]| ==> g[i][j] == Lookup(data, i, j)
  {
    var cols := Columns(data);
    if cols == 0 then []
    else seq(Rows(data), i requires 0 <= i => seq(cols, j requires 0 <= j => CellValue(data, i, j)))
  }

  /** A non-empty rectangular sheet with at least one column is already normal. */
  lemma NormaliseRectangular(data: seq<seq<string>>)
    requires |data| > 0 && |data[0]| > 0
    requires forall i :: 0 <= i < |data| ==> |data[i]| == |data[0]|
    ensures Normalise(data) == data
  {
    var g := Normalise(data);
    assert |g| == |data|;
    forall i | 0 <= i < |g|
      ensures g[i] == data[i]
    {
      assert |g[i]| == |data[i]|;
    }
  }

  /** Normalising twice changes nothing more, as long as there is a column. */
  lemma NormaliseIdempotent(data: seq<seq<string>>)
    requires Columns(data) > 0
    ensures Normalise(Normalise(data)) == Normalise(data)
  {
    var g := Normalise(data);
    assert |g| > 0 && |g[0]| > 0;
    NormaliseRectangular(g);
  }

  /** Rendering the normal form of a sheet draws the same table as the sheet. */
  lemma RenderNormalised(data: seq<seq<string>>)
    requires Columns(data) > 0
    ensures CreateSpreadsheetGrid(Normalise(data)) == CreateSpreadsheetGrid(data)
  {
    var g := Normalise(data);
    var cols := Columns(data);
    assert Columns(g) == cols && Rows(g) == Rows(data);
    forall i: nat | i < Rows(data)
      ensures RenderRow(g, i, cols) == RenderRow(data, i, cols)
    {
      assert RenderRow(g, i, cols).cells == RenderRow(data, i, cols).cells;
    }
  }
}

=== FILE: http.dfy ===
/** Requests the client sends and the responses it reacts to. */
module Http {
  import opened JsValues
  import opened JsArrays

  datatype Method = GET | POST | PUT | DELETE

  /** The fields of the client form. */
  datatype ClientForm = ClientForm(name: string, email: string, phone: string, document: string, address: string)

  /** The JSON body of a request. */
  datatype Payload =
    | NoPayload
    | SheetPayload(name: string, data: SheetArray)
    | ClientPayload(client: ClientForm)

  /** A request: verb, path below the API base, `Authorization` header and body. */
  datatype Request = Request(verb: Method, path: string, authorization: string, payload: Payload)

  /** A spreadsheet as the API lists it. */
  datatype SheetRecord = SheetRecord(id: JsValue, name: string, data: seq<seq<string>>)

  /**
   * What `response.json()` gives: not JSON at all (it throws), an object
   * (only its `id` field matters here) or an array of spreadsheets.
   */
  datatype ResponseBody = NotJson | Record(id: JsValue) | SheetList(list: seq<SheetRecord>)

  datatype Response = Response(status: int, body: ResponseBody)

  /** The outcome of `fetch`: it throws on a network failure, otherwise resolves with a response. */
  datatype Fetched = NetworkError | Received(response: Response)

  /** `response.ok` */
  predicate IsOk(status: int)
  {
    200 <= status <= 299
  }
}

=== FILE: js_arrays.dfy ===
/**
 * JavaScript arrays as sequences with holes. Reading an index past the end
 * or in a hole yields `undefined` (`None`); writing an array index past the
 * end makes the array that index plus one long, leaving holes between.
 */
module JsArrays {
  import opened Wrappers

  type JsArray<T> = seq<Option<T>>

  /** An array of arrays of strings, such as a sheet rebuilt from the table; rows and cells may be holes. */
  type SheetArray = JsArray<JsArray<string>>

  /** The largest array length, 2^32 - 1; array indices are below it. */
  const MaxLength: nat := 0xFFFF_FFFF

  /**
   * Whether a number used as a property key names an array element.
   * NaN, negatives and values from 2^32 - 1 upwards name ordinary properties.
   */
  function AsIndex(key: Option<int>): (r: Option<nat>)
    ensures r.Some? <==> key.Some? && 0 <= key.value < MaxLength
    ensures r.Some? ==> r.value == key.value
  {
    match key
    case Some(k) => if 0 <= k < MaxLength then Some(k) else None
    case None => None
  }

  /** `a[k]` */
  function Get<T>(a: JsArray<T>, k: nat): Option<T>
  {
    if k < |a| then a[k] else None
  }

  /** `a[k] = v` for an array index `k`. */
  function Assign<T>(a: JsArray<T>, k: nat, v: T): (r: JsArray<T>)
    requires k < MaxLength
    ensures |r| == if k < |a| then |a| else k + 1
    ensures forall m :: 0 <= m < |r| ==> r[m] == if m == k then Some(v) else Get(a, m)
  {
    if k < |a| then a[k := Some(v)] else a + seq(k - |a|, _ => None) + [Some(v)]
  }

  /** Writing just past the end appends. */
  lemma AssignAtEnd<T>(a: JsArray<T>, v: T)
    requires |a| < MaxLength
    ensures Assign(a, |a|, v) == a + [Some(v)]
  {
  }

  /** Writing an element that is present replaces it in place. */
  lemma AssignInside<T>(a: JsArray<T>, k: nat, v: T)
    requires k < |a| && k < MaxLength
    ensures Assign(a, k, v) == a[k := Some(v)]
  {
  }
}

=== FILE: js_values.dfy ===
/**
 * The few JavaScript value semantics the client relies on: truthiness,
 * `Array.prototype.includes`, Number-to-String conversion of integers and
 * the global `parseInt` without a radix argument.
 */
module JsValues {
  import opened Wrappers

  /** A JSON-like JavaScript value. Numbers are integers; objects are not modelled. */
  datatype JsValue = Undefined | Null | Bool(b: bool) | Num(n: int) | Str(s: string)

  /** ToBoolean: `undefined`, `null`, `false`, `0` and `''` are falsy. */
  predicate Truthy(v: JsValue)
  {
    match v
    case Undefined => false
    case Null => false
    case Bool(b) => b
    case Num(n) => n != 0
    case Str(s) => s != ""
  }

  /** `list.includes(v)`; SameValueZero coincides with `==` on these values. */
  predicate Includes(list: seq<JsValue>, v: JsValue)
  {
    if list == [] then false else list[0] == v || Includes(list[1..], v)
  }

  lemma {:induction false} IncludesIsMembership(list: seq<JsValue>, v: JsValue)
    ensures Includes(list, v) <==> v in list
  {
    if list != [] {
      IncludesIsMembership(list[1..], v);
      assert list == [list[0]] + list[1..];
    }
  }

  // ---------------------------------------------------------------------------
  // Number to String

  predicate IsDecimalDigit(c: char)
  {
    '0' <= c <= '9'
  }

  function DigitChar(d: nat): (c: char)
    requires d < 10
    ensures IsDecimalDigit(c)
    ensures (c == '0') <==> (d == 0)
  {
    (48 + d) as char
  }

  /** The decimal form of a non-negative integer, as `String(n)` or `${n}` write it. */
  function ShowNat(n: nat): (s: string)
    ensures |s| > 0
    ensures forall k :: 0 <= k < |s| ==> IsDecimalDigit(s[k])
    ensures (s[0] == '0') <==> (n == 0)
    ensures n == 0 ==> s == "0"
  {
    if n < 10 then [DigitChar(n)] else ShowNat(n / 10) + [DigitChar(n % 10)]
  }

  /** The decimal form of an integer: a minus sign before the magnitude when negative. */
  function ShowInt(i: int): string
  {
    if i < 0 then "-" + ShowNat(-i) else ShowNat(i)
  }

  /** ToString on the modelled values. */
  function ToJsString(v: JsValue): string
  {
    match v
    case Undefined => "undefined"
    case Null => "null"
    case Bool(b) => if b then "true" else "false"
    case Num(n) => ShowInt(n)
    case Str(s) => s
  }

  // ---------------------------------------------------------------------------
  // parseInt(s) with no radix

  /** StrWhiteSpaceChar: the white space and line terminators `parseInt` skips. */
  predicate IsWhiteSpace(c: char)
  {
    || c == '\t' || c == '\U{000B}' || c == '\U{000C}' || c == ' '
    || c == '\U{00A0}' || c == '\U{FEFF}' || c == '\U{1680}'
    || ('\U{2000}' <= c <= '\U{200A}')
    || c == '\U{202F}' || c == '\U{205F}' || c == '\U{3000}'
    || c == '\n' || c == '\r' || c == '\U{2028}' || c == '\U{2029}'
  }

  /** Drops the leading white space. */
  function TrimStart(s: string): (t: string)
    ensures |t| <= |s| && t == s[|s| - |t|..]
    ensures forall k :: 0 <= k < |s| - |t| ==> IsWhiteSpace(s[k])
    ensures t == [] || !IsWhiteSpace(t[0])
  {
    if s != [] && IsWhiteSpace(s[0]) then TrimStart(s[1..]) else s
  }

  /** The value of a digit in radices up to 36: `0`-`9`, then `a`-`z` or `A`-`Z`. */
  function DigitValue(c: char): Option<nat>
  {
    if '0' <= c <= '9' then Some(c as nat - '0' as nat)
    else if 'a' <= c <= 'z' then Some(c as nat - 'a' as nat + 10)
    else if 'A' <= c <= 'Z' then Some(c as nat - 'A' as nat + 10)
    else None
  }

  predicate IsRadixDigit(c: char, radix: nat)
  {
    DigitValue(c).Some? && DigitValue(c).value < radix
  }

  /** The longest prefix of `s` made of digits of `radix`. */
  function DigitRun(s: string, radix: nat): (z: string)
    ensures |z| <= |s| && z == s[..|z|]
    ensures forall k :: 0 <= k < |z| ==> IsRadixDigit(z[k], radix)
    ensures |z| == |s| || !IsRadixDigit(s[|z|], radix)
  {
    if s != [] && IsRadixDigit(s[0], radix) then [s[0]] + DigitRun(s[1..], radix) else []
  }

  /** The product of two naturals, which is natural. */
  function MulNat(x: nat, y: nat): (p: nat)
    ensures p == x * y
  {
    x * y
  }

  /** The number a string of digits denotes, most significant digit first. */
  function DigitsValue(z: string, radix: nat): nat
    requires forall k :: 0 <= k < |z| ==> IsRadixDigit(z[k], radix)
  {
    if z == [] then 0
    else
      var init := z[..|z| - 1];
      assert forall k :: 0 <= k < |init| ==> init[k] == z[k];
      assert IsRadixDigit(z[|z| - 1], radix);
      var high: nat := DigitsValue(init, radix);
      var shifted: nat := MulNat(high, radix);
      shifted + DigitValue(z[|z| - 1]).value
  }

  /** The value of the longest run of `radix` digits at the start of `u`; `None` when there is none. */
  function ReadDigits(u: string, radix: nat): Option<nat>
  {
    var z := DigitRun(u, radix);
    if z == [] then None else Some(DigitsValue(z, radix))
  }

  predicate HasHexPrefix(u: string)
  {
    |u| >= 2 && u[0] == '0' && (u[1] == 'x' || u[1] == 'X')
  }

  /** The unsigned part of `parseInt`: hexadecimal after `0x`/`0X`, decimal otherwise. */
  function ParseMagnitude(u: string): Option<nat>
  {
    if HasHexPrefix(u) then ReadDigits(u[2..], 16) else ReadDigits(u, 10)
  }

  /**
   * `parseInt(s)`: skip white space, take an optional sign, then read the
   * magnitude up to the first character that is not a digit. `None` stands
   * for NaN.
   */
  function ParseInt(s: string): Option<int>
  {
    var t := TrimStart(s);
    var negative := |t| > 0 && t[0] == '-';
    var u := if |t| > 0 && (t[0] == '-' || t[0] == '+') then t[1..] else t;
    match ParseMagnitude(u)
    case None => None
    case Some(m) => var v: int := m; Some(if negative then -v else v)
  }

  lemma DecimalIsRadixDigit(c: char)
    requires IsDecimalDigit(c)
    ensures IsRadixDigit(c, 10) && !IsWhiteSpace(c)
  {
  }

  lemma {:induction false} DigitRunOfDigits(s: string)
    requires forall k :: 0 <= k < |s| ==> IsDecimalDigit(s[k])
    ensures DigitRun(s, 10) == s
  {
    if s != [] {
      DigitRunOfDigits(s[1..]);
    }
  }

  lemma {:induction false} DigitsValueOfShowNat(n: nat)
    ensures DigitsValue(ShowNat(n), 10) == n
  {
    var s := ShowNat(n);
    if n >= 10 {
      DigitsValueOfShowNat(n / 10);
      assert s[..|s| - 1] == ShowNat(n / 10);
    }
  }

  /** An unsigned run of decimal digits is read whole, as a decimal number. */
  lemma ParseMagnitudeOfDigits(s: string)
    requires |s| > 0
    requires forall k :: 0 <= k < |s| ==> IsDecimalDigit(s[k])
    ensures forall k :: 0 <= k < |s| ==> IsRadixDigit(s[k], 10)
    ensures ParseMagnitude(s) == Some(DigitsValue(s, 10))
  {
    forall k | 0 <= k < |s| {
      DecimalIsRadixDigit(s[k]);
    }
    assert !HasHexPrefix(s) by {
      assert |s| >= 2 ==> IsDecimalDigit(s[1]);
    }
    DigitRunOfDigits(s);
    assert ReadDigits(s, 10) == Some(DigitsValue(s, 10));
  }

  /** Parsing the decimal form of a non-negative integer gives it back. */
  lemma ParseShowNat(n: nat)
    ensures ParseInt(ShowNat(n)) == Some(n)
  {
    ParseMagnitudeOfShowNat(n);
    ParseUnsigned(ShowNat(n), n);
  }

  /** A magnitude `m` that starts with a decimal digit parses to `m`. */
  lemma ParseUnsigned(s: string, m: nat)
    requires |s| > 0 && IsDecimalDigit(s[0]) && ParseMagnitude(s) == Some(m)
    ensures ParseInt(s) == Some(m)
  {
    DecimalIsRadixDigit(s[0]);
    assert TrimStart(s) == s;
  }

  /** The unsigned reading of the decimal form of `n` is `n`. */
  lemma ParseMagnitudeOfShowNat(n: nat)
    ensures ParseMagnitude(ShowNat(n)) == Some(n)
  {
    ParseMagnitudeOfDigits(ShowNat(n));
    DigitsValueOfShowNat(n);
  }

  /** A minus sign before a magnitude `m` parses to `-m`. */
  lemma ParseNegated(s: string, m: nat)
    requires ParseMagnitude(s) == Some(m)
    ensures ParseInt("-" + s) == Some(-(m as int))
  {
    var t := "-" + s;
    assert t[0] == '-' && t[1..] == s;
    assert !IsWhiteSpace(t[0]);
    assert TrimStart(t) == t;
  }

  /** Parsing the decimal form of a negative integer gives it back. */
  lemma ParseShowNegative(i: int)
    requires i < 0
    ensures ParseInt(ShowInt(i)) == Some(i)
  {
    ParseMagnitudeOfShowNat(-i);
    ParseNegated(ShowNat(-i), -i);
  }

  /** Parsing the decimal form of any integer gives it back. */
  lemma ParseShowInt(i: int)
    ensures ParseInt(ShowInt(i)) == Some(i)
  {
    if i < 0 {
      ParseShowNegative(i);
    } else {
      ParseShowNat(i);
    }
  }
}

=== FILE: read_back.dfy ===
/**
 * `getSpreadsheetData`: rebuilding the sheet's two-dimensional array from
 * the editable cells, and what that gives for a table just rendered.
 */
module ReadBack {
  import opened Wrappers
  import opened JsValues
  import opened JsArrays
  import opened Grid

  /**
   * `if (!data[row]) data[row] = []`, then, when the column is an array
   * index, `data[row][col] = text`.
   */
  function WriteCell(data: SheetArray, row: nat, col: Option<nat>, text: string): (r: SheetArray)
    requires row < MaxLength
    ensures Get(r, row).Some?
    ensures col.Some? && col.value < MaxLength ==> Get(Get(r, row).value, col.value) == Some(text)
    ensures forall k: nat :: !(col.Some? && k == col.value) ==>
              Get(Get(r, row).value, k) == if Get(data, row).Some? then Get(Get(data, row).value, k) else None
    ensures forall m: nat :: m != row ==> Get(r, m) == Get(data, m)
  {
    var withRow := if Get(data, row).Some? then data else Assign(data, row, []);
    match col
    case None => withRow
    case Some(c) =>
      if c < MaxLength then Assign(withRow, row, Assign(Get(withRow, row).value, c, text))
      else withRow
  }

  /**
   * One step of the `forEach`: parse both attributes and write the cell. A
   * row key that is not an array index (NaN, negative) names a plain
   * property, which leaves the elements alone.
   */
  function Store(data: SheetArray, c: Cell): (r: SheetArray)
    ensures AsIndex(ParseInt(c.dataRow)).None? ==> r == data
  {
    match AsIndex(ParseInt(c.dataRow))
    case None => data
    case Some(row) => WriteCell(data, row, AsIndex(ParseInt(c.dataCol)), c.text)
  }

  /** A cell rendered at row `i`, column `j` is written at `data[i][j]`. */
  lemma StoreRendered(data: SheetArray, i: nat, j: nat, text: string)
    requires i < MaxLength && j < MaxLength
    ensures Store(data, Cell(ShowNat(i), ShowNat(j), text)) == WriteCell(data, i, Some(j), text)
  {
    var c := Cell(ShowNat(i), ShowNat(j), text);
    ParseShowNat(i);
    ParseShowNat(j);
    assert AsIndex(ParseInt(c.dataRow)) == Some(i);
    assert AsIndex(ParseInt(c.dataCol)) == Some(j);
  }

  /** `cells.forEach(step)` starting from `acc`. */
  function ForEach<S, C>(step: (S, C) -> S, acc: S, cells: seq<C>): S
  {
    if cells == [] then acc
    else step(ForEach(step, acc, cells[..|cells| - 1]), cells[|cells| - 1])
  }

  lemma {:induction false} ForEachAppend<S, C>(step: (S, C) -> S, acc: S, a: seq<C>, b: seq<C>)
    ensures ForEach(step, acc, a + b) == ForEach(step, ForEach(step, acc, a), b)
  {
    if b != [] {
      var ab := a + b;
      assert ab[..|ab| - 1] == a + b[..|b| - 1];
      assert ab[|ab| - 1] == b[|b| - 1];
      ForEachAppend(step, acc, a, b[..|b| - 1]);
    } else {
      assert a + b == a;
    }
  }

  /** Processes `cells` in order, starting from `data`. */
  function ReadFrom(data: SheetArray, cells: seq<Cell>): SheetArray
  {
    ForEach(Store, data, cells)
  }

  /** `getSpreadsheetData()` over the editable cells in document order. */
  function GetSpreadsheetData(cells: seq<Cell>): SheetArray
  {
    ReadFrom([], cells)
  }

  /** A grid as a JavaScript array without holes. */
  function Embed(g: seq<seq<string>>): (a: SheetArray)
    ensures |a| == |g|
    ensures forall i :: 0 <= i < |a| ==> a[i].Some? && |a[i].value| == |g[i]|
    ensures forall i, j :: 0 <= i < |a| && 0 <= j < |g[i]| ==> a[i].value[j] == Some(g[i][j])
  {
    seq(|g|, i requires 0 <= i < |g| => Some(seq(|g[i]|, j requires 0 <= j < |g[i]| => Some(g[i][j]))))
  }

  /** Whether no row and no cell of the array is a hole. */
  predicate Dense(a: SheetArray)
  {
    forall i :: 0 <= i < |a| ==> a[i].Some? && forall j :: 0 <= j < |a[i].value| ==> a[i].value[j].Some?
  }

  /** The grid an array without holes holds; `None` when there is a hole. */
  function Densify(a: SheetArray): (r: Option<seq<seq<string>>>)
    ensures r.Some? <==> Dense(a)
    ensures r.Some? ==> Embed(r.value) == a
  {
    if Dense(a) then
      var g := seq(|a|, i requires 0 <= i < |a| =>
        seq(|a[i].value|, j requires 0 <= j < |a[i].value| => a[i].value[j].value));
      assert forall i :: 0 <= i < |a| ==> Embed(g)[i] == a[i] by {
        forall i | 0 <= i < |a|
          ensures Embed(g)[i] == a[i]
        {
          assert Embed(g)[i].value == a[i].value;
        }
      }
      Some(g)
    else None
  }

  lemma DensifyEmbed(g: seq<seq<string>>)
    ensures Densify(Embed(g)) == Some(g)
  {
    var a := Embed(g);
    var r := Densify(a);
    assert r.Some?;
    assert |r.value| == |g|;
    forall i | 0 <= i < |g|
      ensures r.value[i] == g[i]
    {
      assert Embed(r.value)[i] == a[i];
      assert |r.value[i]| == |a[i].value| == |g[i]|;
      forall j | 0 <= j < |g[i]|
        ensures r.value[i][j] == g[i][j]
      {
        assert Embed(r.value)[i].value[j] == a[i].value[j];
      }
    }
    assert r.value == g;
  }

  /** Whether the cells of body row `i` carry the row and column attributes the render gives them. */
  predicate CellsOfRow(cells: seq<Cell>, i: nat)
  {
    forall j :: 0 <= j < |cells| ==> cells[j].dataRow == ShowNat(i) && cells[j].dataCol == ShowNat(j)
  }

  /** A table body laid out as the render lays it out: `cols` cells per row, numbered in order. */
  predicate IsGridBody(rows: seq<TableRow>, cols: nat)
  {
    forall i :: 0 <= i < |rows| ==> |rows[i].cells| == cols && CellsOfRow(rows[i].cells, i)
  }

  /** The texts on screen, row by row. */
  function Texts(rows: seq<TableRow>): seq<seq<string>>
  {
    seq(|rows|, i requires 0 <= i < |rows| =>
      seq(|rows[i].cells|, j requires 0 <= j < |rows[i].cells| => rows[i].cells[j].text))
  }

  /** The texts of one row's cells as an array without holes. */
  function TextArray(cells: seq<Cell>): JsArray<string>
  {
    seq(|cells|, j requires 0 <= j < |cells| => Some(cells[j].text))
  }

  /** The first cell of the row after the last one creates that row. */
  lemma WriteFirstCell(acc: SheetArray, text: string)
    requires |acc| < MaxLength
    ensures WriteCell(acc, |acc|, Some(0), text) == acc + [Some([Some(text)])]
  {
    var withRow := acc + [Some([])];
    assert Get(acc, |acc|).None?;
    AssignAtEnd(acc, []);
    assert Get(withRow, |acc|).value == [];
    AssignAtEnd([], text);
    AssignInside(withRow, |acc|, [Some(text)]);
    assert withRow[|acc| := Some([Some(text)])] == acc + [Some([Some(text)])];
    var empty: JsArray<string> := [];
    assert Assign(empty, 0, text) == [Some(text)];
    assert WriteCell(acc, |acc|, Some(0), text) == Assign(withRow, |acc|, Assign(empty, 0, text));
  }

  /** A further cell of the last row is appended to it. */
  lemma WriteNextCell(acc: SheetArray, prefix: JsArray<string>, text: string)
    requires |acc| < MaxLength && |prefix| < MaxLength
    ensures WriteCell(acc + [Some(prefix)], |acc|, Some(|prefix|), text) ==
            acc + [Some(prefix + [Some(text)])]
  {
    var before := acc + [Some(prefix)];
    assert Get(before, |acc|) == Some(prefix);
    AssignAtEnd(prefix, text);
    AssignInside(before, |acc|, prefix + [Some(text)]);
  }

  lemma ReadFromSnoc(acc: SheetArray, cells: seq<Cell>, c: Cell)
    ensures ReadFrom(acc, cells + [c]) == Store(ReadFrom(acc, cells), c)
  {
    assert (cells + [c])[..|cells|] == cells;
  }

  lemma TextArraySnoc(cells: seq<Cell>)
    requires |cells| > 0
    ensures TextArray(cells) == TextArray(cells[..|cells| - 1]) + [Some(cells[|cells| - 1].text)]
  {
  }

  /** Reading the cells of row `i` after rows `0..i-1` appends that row, once it has a cell. */
  lemma {:induction false} ReadRow(acc: SheetArray, i: nat, cells: seq<Cell>)
    requires |acc| == i < MaxLength && |cells| <= MaxLength && CellsOfRow(cells, i)
    ensures ReadFrom(acc, cells) == if cells == [] then acc else acc + [Some(TextArray(cells))]
  {
    if cells != [] {
      var m := |cells|;
      var front := cells[..m - 1];
      var last := cells[m - 1];
      assert cells == front + [last];
      assert last == Cell(ShowNat(i), ShowNat(m - 1), last.text);
      assert CellsOfRow(front, i);
      ReadFromSnoc(acc, front, last);
      ReadRow(acc, i, front);
      StoreRendered(ReadFrom(acc, front), i, m - 1, last.text);
      TextArraySnoc(cells);
      WriteRowCell(acc, front, last.text);
    }
  }

  /** Writing the next cell of the last row, whose earlier cells `front` have been read. */
  lemma WriteRowCell(acc: SheetArray, front: seq<Cell>, text: string)
    requires |acc| < MaxLength && |front| < MaxLength
    ensures WriteCell(if front == [] then acc else acc + [Some(TextArray(front))], |acc|, Some(|front|), text) ==
            acc + [Some(TextArray(front) + [Some(text)])]
  {
    if front == [] {
      WriteFirstCell(acc, text);
      assert TextArray(front) == [];
    } else {
      WriteNextCell(acc, TextArray(front), text);
    }
  }

  lemma EmbedTextsSnoc(rows: seq<TableRow>)
    requires |rows| > 0
    ensures Embed(Texts(rows)) == Embed(Texts(rows[..|rows| - 1])) + [Some(TextArray(rows[|rows| - 1].cells))]
  {
    var n := |rows|;
    var a := Embed(Texts(rows));
    var b := Embed(Texts(rows[..n - 1])) + [Some(TextArray(rows[n - 1].cells))];
    assert |a| == |b|;
    forall i | 0 <= i < n
      ensures a[i] == b[i]
    {
      assert a[i].value == b[i].value;
    }
  }

  lemma {:induction false} ReadRows(rows: seq<TableRow>, cols: nat)
    requires 0 < cols <= MaxLength && |rows| <= MaxLength && IsGridBody(rows, cols)
    ensures ReadFrom([], EditableCells(rows)) == Embed(Texts(rows))
  {
    var n := |rows|;
    if n > 0 {
      var front := rows[..n - 1];
      ReadRows(front, cols);
      ForEachAppend(Store, [], EditableCells(front), rows[n - 1].cells);
      ReadRow(Embed(Texts(front)), n - 1, rows[n - 1].cells);
      EmbedTextsSnoc(rows);
    }
  }

  /**
   * `getSpreadsheetData` over a table body laid out by the render, whatever
   * texts its cells hold now: the rows×cols array of those texts, without
   * holes, or `[]` when there are no columns.
   */
  lemma ReadBackIsTexts(rows: seq<TableRow>, cols: nat)
    requires IsGridBody(rows, cols) && |rows| <= MaxLength && cols <= MaxLength
    ensures GetSpreadsheetData(EditableCells(rows)) == if cols == 0 then [] else Embed(Texts(rows))
  {
    if cols == 0 {
      EditableCellCountRows(rows, 0);
      assert EditableCells(rows) == [];
    } else {
      ReadRows(rows, cols);
    }
  }

  /** The render lays out a grid body whose texts are the normal form of the data. */
  lemma RenderedGridBody(data: seq<seq<string>>)
    ensures IsGridBody(CreateSpreadsheetGrid(data).rows, Columns(data))
    ensures Columns(data) > 0 ==> Texts(CreateSpreadsheetGrid(data).rows) == Normalise(data)
  {
    var t := CreateSpreadsheetGrid(data);
    if Columns(data) > 0 {
      var g := Texts(t.rows);
      assert |g| == |Normalise(data)|;
      forall i | 0 <= i < |g|
        ensures g[i] == Normalise(data)[i]
      {
        assert |g[i]| == |Normalise(data)[i]|;
      }
    }
  }

  /**
   * Reading back a table just rendered from `data` gives the normal form of
   * `data` as an array without holes: rows×cols texts when there is a column,
   * and `[]` when there is none.
   */
  lemma ReadBackOfRender(data: seq<seq<string>>)
    requires IsJsGrid(data)
    ensures GetSpreadsheetData(EditableCells(CreateSpreadsheetGrid(data).rows)) == Embed(Normalise(data))
  {
    RenderedGridBody(data);
    ReadBackIsTexts(CreateSpreadsheetGrid(data).rows, Columns(data));
  }

  /**
   * Render, read back, render again: with at least one column the read-back
   * has no holes, and rendering it draws the very table the sheet drew.
   */
  lemma RenderReadBackFixedPoint(data: seq<seq<string>>)
    requires IsJsGrid(data) && Columns(data) > 0
    ensures var back := Densify(GetSpreadsheetData(EditableCells(CreateSpreadsheetGrid(data).rows)));
            back == Some(Normalise(data)) &&
            CreateSpreadsheetGrid(back.value) == CreateSpreadsheetGrid(data)
  {
    ReadBackOfRender(data);
    DensifyEmbed(Normalise(data));
    RenderNormalised(data);
  }

  /** A non-empty rectangular sheet with a column reads back unchanged. */
  lemma ReadBackRectangular(data: seq<seq<string>>)
    requires IsJsGrid(data) && |data| > 0 && |data[0]| > 0
    requires forall i :: 0 <= i < |data| ==> |data[i]| == |data[0]|
    ensures Densify(GetSpreadsheetData(EditableCells(CreateSpreadsheetGrid(data).rows))) == Some(data)
  {
    ReadBackOfRender(data);
    NormaliseRectangular(data);
    DensifyEmbed(data);
  }
}

=== FILE: session.dfy ===
/**
 * The controller's session: the token and user kept after login, which of
 * the login and main screens is shown, the controls reserved to privileged
 * roles, and the forced logout on an unauthorized response.
 */
module Session {
  import opened Wrappers
  import opened JsValues
  import opened Grid
  import opened Http

  /** The `user` object `{id, username, email, role}`; a missing field is `undefined`. */
  datatype User = User(id: JsValue, username: JsValue, email: JsValue, role: JsValue)

  /** The empty object `{}`. */
  const NoUser: User := User(Undefined, Undefined, Undefined, Undefined)

  datatype Screen = LoginScreen | MainScreen

  /**
   * The controller object: `token`, `user` and `currentSheetId`, plus the UI
   * state they drive: the active screen, whether the admin menu is displayed,
   * the sheet name field and the grid on screen. `sheetEpoch` counts the
   * sheets put on screen so far; the controller has no such counter, and
   * only the corrected save path uses it, to recognise the sheet a save
   * was sent from.
   */
  datatype App = App(
    token: JsValue,
    user: User,
    currentSheetId: JsValue,
    screen: Screen,
    adminMenuShown: bool,
    sheetName: string,
    grid: Table,
    sheetEpoch: nat)

  const PrivilegedRoles: seq<JsValue> := [Str("admin"), Str("gerente")]

  /** `['admin', 'gerente'].includes(role)` */
  function IsPrivileged(role: JsValue): (b: bool)
    ensures b <==> role == Str("admin") || role == Str("gerente")
  {
    IncludesIsMembership(PrivilegedRoles, role);
    Includes(PrivilegedRoles, role)
  }

  function ShowLoginScreen(a: App): App
  {
    a.(screen := LoginScreen)
  }

  /**
   * `showMainScreen` as written: it displays the admin menu for a privileged
   * role but never hides it for any other role.
   */
  function ShowMainScreenAsWritten(a: App): (r: App)
    ensures r.screen == MainScreen
    ensures r.adminMenuShown == (a.adminMenuShown || IsPrivileged(a.user.role))
  {
    a.(screen := MainScreen, adminMenuShown := if IsPrivileged(a.user.role) then true else a.adminMenuShown)
  }

  /** `showMainScreen` with the admin menu displayed exactly for admin and gerente. */
  function ShowMainScreen(a: App): (r: App)
    ensures r.screen == MainScreen
    ensures r.adminMenuShown <==> a.user.role == Str("admin") || a.user.role == Str("gerente")
    ensures r.(screen := a.screen, adminMenuShown := a.adminMenuShown) == a
  {
    a.(screen := MainScreen, adminMenuShown := IsPrivileged(a.user.role))
  }

  /**
   * The corrected screen switch differs from the one as written only when the
   * admin menu is already displayed.
   */
  lemma ShowMainScreenAgreesWhenMenuHidden(a: App)
    requires !a.adminMenuShown
    ensures ShowMainScreen(a) == ShowMainScreenAsWritten(a)
  {
  }

  /** `checkAuth`: the main screen for a truthy token and a truthy `user.id`, the login screen otherwise. */
  function CheckAuth(a: App): (r: App)
    ensures r.screen == MainScreen <==> Truthy(a.token) && Truthy(a.user.id)
    ensures r.token == a.token && r.user == a.user && r.currentSheetId == a.currentSheetId
  {
    if Truthy(a.token) && Truthy(a.user.id) then ShowMainScreen(a) else ShowLoginScreen(a)
  }

  /** `logout`: forget the token and the user and go back to the login screen. */
  function Logout(a: App): (r: App)
    ensures r.token == Null && r.user == NoUser && r.screen == LoginScreen
    ensures r.currentSheetId == a.currentSheetId && r.sheetName == a.sheetName && r.grid == a.grid
  {
    ShowLoginScreen(a.(token := Null, user := NoUser))
  }

  /** Logging out twice is logging out once. */
  lemma LogoutIdempotent(a: App)
    ensures Logout(Logout(a)) == Logout(a)
  {
  }

  /** Once logged out, the startup check shows the login screen. */
  lemma LogoutThenCheckAuth(a: App)
    ensures CheckAuth(Logout(a)).screen == LoginScreen
  {
  }

  /** The reply to `POST /login`: unreachable or not JSON (caught), or a response with its `ok` flag. */
  datatype LoginReply = LoginUnreachable | LoginReply(ok: bool, accessToken: JsValue, user: User)

  function StoreLogin(a: App, accessToken: JsValue, user: User): App
  {
    a.(token := accessToken, user := user)
  }

  /** `handleLogin` as written, with its `showMainScreen`. */
  function HandleLoginAsWritten(a: App, reply: LoginReply): App
  {
    if reply.LoginReply? && reply.ok then ShowMainScreenAsWritten(StoreLogin(a, reply.accessToken, reply.user))
    else a
  }

  /** `handleLogin`: on an ok response keep the token and user and show the main screen. */
  function HandleLogin(a: App, reply: LoginReply): (r: App)
    ensures reply.LoginReply? && reply.ok ==>
              r.token == reply.accessToken && r.user == reply.user && r.screen == MainScreen
    ensures !(reply.LoginReply? && reply.ok) ==> r == a
    ensures r.currentSheetId == a.currentSheetId && r.grid == a.grid
  {
    if reply.LoginReply? && reply.ok then ShowMainScreen(StoreLogin(a, reply.accessToken, reply.user))
    else a
  }

  /** A login that yields a truthy token and user id passes the startup check afterwards. */
  lemma LoginThenCheckAuth(a: App, reply: LoginReply)
    requires reply.LoginReply? && reply.ok && Truthy(reply.accessToken) && Truthy(reply.user.id)
    ensures CheckAuth(HandleLogin(a, reply)) == HandleLogin(a, reply)
  {
  }

  /** The `Authorization` header every API call carries. */
  function BearerHeader(a: App): string
  {
    "Bearer " + ToJsString(a.token)
  }

  /** After a logout the header carries the text `null`. */
  lemma LoggedOutHeader(a: App)
    ensures BearerHeader(Logout(a)) == "Bearer null"
  {
  }

  datatype ApiError = FetchFailed | SessionExpired

  /**
   * `apiCall` once `fetch` has settled: a network failure propagates, a 401
   * logs out and throws, and any other response is returned as it came.
   */
  function ApiCall(a: App, fetched: Fetched): (App, Result<Response, ApiError>)
  {
    match fetched
    case NetworkError => (a, Failure(FetchFailed))
    case Received(response) =>
      if response.status == 401 then (Logout(a), Failure(SessionExpired)) else (a, Success(response))
  }

  /**
   * Whatever the state before, an unauthorized response leaves no token and
   * no user, shows the login screen, keeps it on the next startup check and
   * raises an error; any other response leaves the state alone.
   */
  lemma UnauthorizedForcesLogin(a: App, fetched: Fetched)
    ensures var (r, result) := ApiCall(a, fetched);
            (fetched.Received? && fetched.response.status == 401 <==> result == Failure(SessionExpired)) &&
            (result == Failure(SessionExpired) ==>
               !Truthy(r.token) && r.user == NoUser && r.screen == LoginScreen &&
               CheckAuth(r).screen == LoginScreen) &&
            (result != Failure(SessionExpired) ==> r == a) &&
            (fetched.Received? && fetched.response.status != 401 ==> result == Success(fetched.response)) &&
            (fetched.NetworkError? ==> result == Failure(FetchFailed))
  {
  }

  /** The buttons of a client row in the client list. */
  datatype ClientAction = Edit | Delete

  /** The actions `loadClients` renders for every client: edit always, delete for privileged roles. */
  function ClientRowActions(a: App): (r: seq<ClientAction>)
    ensures Edit in r
    ensures Delete in r <==> a.user.role == Str("admin") || a.user.role == Str("gerente")
  {
    [Edit] + if IsPrivileged(a.user.role) then [Delete] else []
  }

  /**
   * `loadUsers`: the rows of the user list once it has run, given the rows
   * `shown` already there. A privileged role gets the one row of the current
   * user; any other role returns early and leaves the list as it was.
   */
  function LoadUsers(a: App, shown: seq<User>): (r: seq<User>)
    ensures a.user.role == Str("admin") || a.user.role == Str("gerente") ==> r == [a.user]
    ensures !(a.user.role == Str("admin") || a.user.role == Str("gerente")) ==> r == shown
  {
    if IsPrivileged(a.user.role) then [a.user] else shown
  }

  /**
   * The admin menu is visible when the main screen shows it; the intent is
   * that this happens exactly for privileged roles.
   */
  predicate MenuMatchesRole(a: App)
  {
    a.screen == MainScreen ==> (a.adminMenuShown <==> IsPrivileged(a.user.role))
  }

  /**
   * As written, an admin who logs out and a plain user who then logs in
   * on the same page leaves the user with the admin menu on screen.
   */
  lemma StaleAdminMenu(a: App)
    requires a.screen == LoginScreen && !a.adminMenuShown
    ensures var admin := User(Num(1), Str("ana"), Str("ana@example.com"), Str("admin"));
            var clerk := User(Num(2), Str("rui"), Str("rui@example.com"), Str("user"));
            var a1 := HandleLoginAsWritten(a, LoginReply(true, Str("t1"), admin));
            var a2 := Logout(a1);
            var a3 := HandleLoginAsWritten(a2, LoginReply(true, Str("t2"), clerk));
            MenuMatchesRole(a1) && a3.screen == MainScreen && a3.adminMenuShown &&
            !IsPrivileged(a3.user.role) && !MenuMatchesRole(a3)
  {
  }

  /** With the corrected `showMainScreen`, logging in always leaves the menu matching the role. */
  lemma LoginKeepsMenuMatchingRole(a: App, reply: LoginReply)
    requires MenuMatchesRole(a)
    ensures MenuMatchesRole(HandleLogin(a, reply))
    ensures MenuMatchesRole(CheckAuth(a))
    ensures MenuMatchesRole(Logout(a))
  {
  }
}

=== FILE: sheets.dfy ===
/**
 * The spreadsheet section's handlers: starting a new sheet, loading the
 * first saved sheet, and saving, which creates the sheet on the first save
 * and updates it afterwards. Saving a client follows the same rule.
 */
module Sheets {
  import opened Wrappers
  import opened JsValues
  import opened Grid
  import opened ReadBack
  import opened Http
  import opened Session

  const NewSheetName: string := "Nova Planilha"

  /** `newSpreadsheet` as written: it renders `[[]]`, one row of no columns. */
  function NewSpreadsheetAsWritten(a: App): App
  {
    a.(currentSheetId := Null, sheetName := NewSheetName, grid := CreateSpreadsheetGrid([[]]),
       sheetEpoch := a.sheetEpoch + 1)
  }

  /** `newSpreadsheet` rendering the empty sheet `[]`, which draws the default 50 by 10 grid. */
  function NewSpreadsheet(a: App): (r: App)
    ensures r.currentSheetId == Null && r.sheetName == NewSheetName
    ensures |r.grid.columnLabels| == 10 && |r.grid.rows| == 50
    ensures forall i :: 0 <= i < |r.grid.rows| ==>
              |r.grid.rows[i].cells| == 10 &&
              forall j :: 0 <= j < 10 ==> r.grid.rows[i].cells[j].text == ""
    ensures r.token == a.token && r.user == a.user && r.screen == a.screen
    ensures r.sheetEpoch == a.sheetEpoch + 1
  {
    a.(currentSheetId := Null, sheetName := NewSheetName, grid := CreateSpreadsheetGrid([]),
       sheetEpoch := a.sheetEpoch + 1)
  }

  /**
   * As written, a new sheet has no editable cell at all, so nothing can be
   * typed into it and saving it sends `[]`.
   */
  lemma NewSheetHasNoCells(a: App)
    ensures var r := NewSpreadsheetAsWritten(a);
            |r.grid.columnLabels| == 0 && |r.grid.rows| == 1 &&
            EditableCells(r.grid.rows) == [] &&
            GetSpreadsheetData(EditableCells(r.grid.rows)) == []
  {
    var t := CreateSpreadsheetGrid([[]]);
    EditableCellCountRows(t.rows, 0);
  }

  /** The corrected new sheet has 500 empty editable cells and reads back as a 50 by 10 grid of empty texts. */
  lemma NewSheetIsBlankGrid(a: App)
    ensures var r := NewSpreadsheet(a);
            |EditableCells(r.grid.rows)| == 500 &&
            Densify(GetSpreadsheetData(EditableCells(r.grid.rows))) ==
              Some(seq(50, _ => seq(10, _ => "")))
  {
    var t := CreateSpreadsheetGrid([]);
    assert NewSpreadsheet(a).grid == t;
    EditableCellCount([]);
    assert Rows([]) * Columns([]) == 500;
    ReadBackOfRender([]);
    NormaliseEmpty();
    DensifyEmbed(Normalise([]));
  }

  lemma NormaliseEmpty()
    ensures Normalise([]) == seq(50, _ => seq(10, _ => ""))
  {
    var g := Normalise([]);
    assert |g| == 50;
    forall i | 0 <= i < 50
      ensures g[i] == seq(10, _ => "")
    {
      assert |g[i]| == 10;
    }
  }

  /** `loadSpreadsheetData(sheet)`: remember its id and name and render its data. */
  function LoadSpreadsheetData(a: App, sheet: SheetRecord): App
  {
    a.(currentSheetId := sheet.id, sheetName := sheet.name, grid := CreateSpreadsheetGrid(sheet.data),
       sheetEpoch := a.sheetEpoch + 1)
  }

  /**
   * Saving a sheet just loaded updates that sheet when it has a truthy id,
   * and sends its name and its data in normal form.
   */
  lemma LoadThenSave(a: App, sheet: SheetRecord)
    requires IsJsGrid(sheet.data)
    ensures var q := SaveSpreadsheetRequest(LoadSpreadsheetData(a, sheet));
            (q.verb == PUT <==> Truthy(sheet.id)) &&
            q.payload == SheetPayload(sheet.name, Embed(Normalise(sheet.data)))
  {
    ReadBackOfRender(sheet.data);
  }

  /**
   * `loadSpreadsheets` once `GET /spreadsheets` has settled: load the first
   * sheet of a non-empty list, start a new sheet for an empty list or any
   * other JSON (whose `length` is undefined), and keep the state when the
   * call or the JSON parse throws.
   */
  function LoadSpreadsheets(a: App, fetched: Fetched): (r: App)
    ensures fetched.Received? && fetched.response.status != 401 &&
            fetched.response.body.SheetList? && |fetched.response.body.list| > 0 ==>
              r == LoadSpreadsheetData(a, fetched.response.body.list[0])
    ensures fetched.Received? && fetched.response.status != 401 &&
            (fetched.response.body.Record? || fetched.response.body == SheetList([])) ==>
              r == NewSpreadsheet(a)
    ensures fetched.Received? && fetched.response.status == 401 ==> r == Logout(a)
    ensures fetched.NetworkError? || (fetched.Received? && fetched.response.status != 401 && fetched.response.body.NotJson?) ==>
              r == a
    ensures r.sheetEpoch == a.sheetEpoch + 1 || (r.sheetEpoch == a.sheetEpoch && r.currentSheetId == a.currentSheetId)
  {
    var (b, result) := ApiCall(a, fetched);
    match result
    case Failure(_) => b
    case Success(response) =>
      match response.body
      case NotJson => b
      case Record(_) => NewSpreadsheet(b)
      case SheetList(list) => if |list| > 0 then LoadSpreadsheetData(b, list[0]) else NewSpreadsheet(b)
  }

  /** The path of an existing sheet. */
  function SheetPath(id: JsValue): string
  {
    "/spreadsheets/" + ToJsString(id)
  }

  /**
   * The request `saveSpreadsheet` sends: a PUT to the sheet's own path when
   * `currentSheetId` is truthy, a POST to the collection otherwise, carrying
   * the name and the grid as read back from the table.
   */
  function SaveSpreadsheetRequest(a: App): (q: Request)
    ensures q.verb == PUT <==> Truthy(a.currentSheetId)
    ensures q.verb == POST <==> !Truthy(a.currentSheetId)
    ensures q.verb == POST ==> q.path == "/spreadsheets"
    ensures q.verb == PUT ==> q.path == SheetPath(a.currentSheetId)
    ensures q.payload == SheetPayload(a.sheetName, GetSpreadsheetData(EditableCells(a.grid.rows)))
    ensures q.authorization == BearerHeader(a)
  {
    var verb := if Truthy(a.currentSheetId) then PUT else POST;
    var path := if Truthy(a.currentSheetId) then SheetPath(a.currentSheetId) else "/spreadsheets";
    Request(verb, path, BearerHeader(a), SheetPayload(a.sheetName, GetSpreadsheetData(EditableCells(a.grid.rows))))
  }

  /** A numeric sheet id is written in decimal, and the path's last segment parses back to it. */
  lemma SheetPathNamesId(a: App, n: int)
    requires a.currentSheetId == Num(n) && n != 0
    ensures var q := SaveSpreadsheetRequest(a);
            q.verb == PUT && |q.path| > 14 && q.path[..14] == "/spreadsheets/" &&
            ParseInt(q.path[14..]) == Some(n)
  {
    var q := SaveSpreadsheetRequest(a);
    assert q.path[14..] == ShowInt(n);
    ParseShowInt(n);
  }

  /** The `id` that `(await response.json()).id` yields; `None` when the body is not JSON and the parse throws. */
  function JsonId(body: ResponseBody): Option<JsValue>
  {
    match body
    case NotJson => None
    case Record(id) => Some(id)
    case SheetList(_) => Some(Undefined)
  }

  /**
   * A save in flight: the request `saveSpreadsheet` sent before its `await`,
   * and the sheet on screen it was sent from.
   */
  datatype PendingSave = PendingSave(request: Request, epoch: nat)

  /** What clicking save sends from the state `a`. */
  function SendSave(a: App): PendingSave
  {
    PendingSave(SaveSpreadsheetRequest(a), a.sheetEpoch)
  }

  /**
   * `saveSpreadsheet` after its `await`, as written: it tests
   * `currentSheetId` again as it stands when the reply arrives, whatever the
   * request was, and adopts the reply's `id` when that is falsy.
   */
  function SaveReplyAsWritten(a: App, fetched: Fetched): (r: App)
    ensures r.currentSheetId != a.currentSheetId ==>
              !Truthy(a.currentSheetId) && fetched.Received? &&
              IsOk(fetched.response.status) && JsonId(fetched.response.body) == Some(r.currentSheetId)
    ensures !Truthy(a.currentSheetId) && fetched.Received? &&
            IsOk(fetched.response.status) && JsonId(fetched.response.body).Some? ==>
              r.currentSheetId == JsonId(fetched.response.body).value
    ensures fetched.Received? && fetched.response.status == 401 ==> r == Logout(a)
    ensures !(fetched.Received? && fetched.response.status == 401) ==>
              r == a.(currentSheetId := r.currentSheetId)
  {
    var (b, result) := ApiCall(a, fetched);
    match result
    case Failure(_) => b
    case Success(response) =>
      if IsOk(response.status) && !Truthy(a.currentSheetId) then
        match JsonId(response.body)
        case None => b
        case Some(id) => b.(currentSheetId := id)
      else b
  }

  /**
   * As written, a reply can hand its id to another sheet. Save any sheet,
   * PUT or POST, and start a new sheet while the request is in flight: an ok
   * reply carrying an id gives the blank sheet that id, so saving the blank
   * sheet overwrites the sheet the id belongs to.
   */
  lemma StaleReplyRenamesNewSheet(a: App, id: int, status: int)
    requires id != 0 && IsOk(status)
    ensures var blank := NewSpreadsheetAsWritten(a);
            var r := SaveReplyAsWritten(blank, Received(Response(status, Record(Num(id)))));
            !Truthy(blank.currentSheetId) &&
            r.currentSheetId == Num(id) && r.sheetName == NewSheetName && r.grid == blank.grid &&
            SaveSpreadsheetRequest(r).verb == PUT && SaveSpreadsheetRequest(r).path == SheetPath(Num(id))
  {
  }

  /**
   * `saveSpreadsheet` after its `await`, corrected: the reply's `id` is
   * adopted only when the request was a POST sent from the sheet still on
   * screen, and that sheet still has no id. A 401 logs out; nothing else
   * changes.
   */
  function SaveReply(a: App, sent: PendingSave, fetched: Fetched): (r: App)
    ensures r.currentSheetId != a.currentSheetId ==>
              sent.request.verb == POST && sent.epoch == a.sheetEpoch && !Truthy(a.currentSheetId) &&
              fetched.Received? && IsOk(fetched.response.status) &&
              JsonId(fetched.response.body) == Some(r.currentSheetId)
    ensures sent.request.verb == POST && sent.epoch == a.sheetEpoch && !Truthy(a.currentSheetId) &&
            fetched.Received? && IsOk(fetched.response.status) && JsonId(fetched.response.body).Some? ==>
              r.currentSheetId == JsonId(fetched.response.body).value
    ensures fetched.Received? && fetched.response.status == 401 ==> r == Logout(a)
    ensures !(fetched.Received? && fetched.response.status == 401) ==>
              r == a.(currentSheetId := r.currentSheetId)
  {
    var (b, result) := ApiCall(a, fetched);
    match result
    case Failure(_) => b
    case Success(response) =>
      if IsOk(response.status) && sent.request.verb == POST && sent.epoch == a.sheetEpoch &&
         !Truthy(a.currentSheetId) then
        match JsonId(response.body)
        case None => b
        case Some(id) => b.(currentSheetId := id)
      else b
  }

  /**
   * With the corrected reply, no reply to a save sent before a new sheet was
   * started gives that new sheet an id: it stays unsaved and its next save
   * creates it.
   */
  lemma ReplyAfterNewSheetIgnored(a: App, fetched: Fetched)
    requires !(fetched.Received? && fetched.response.status == 401)
    ensures var blank := NewSpreadsheet(a);
            var r := SaveReply(blank, SendSave(a), fetched);
            r == blank && SaveSpreadsheetRequest(r).verb == POST
  {
  }

  /** After a successful first save that returns a truthy id, the next save updates that sheet. */
  lemma SecondSaveUpdates(a: App, status: int, id: JsValue)
    requires !Truthy(a.currentSheetId) && IsOk(status) && Truthy(id)
    ensures var r := SaveReply(a, SendSave(a), Received(Response(status, Record(id))));
            r.currentSheetId == id &&
            SaveSpreadsheetRequest(r) == Request(PUT, SheetPath(id), BearerHeader(a), SaveSpreadsheetRequest(a).payload)
  {
  }

  /** A first save whose response has no `id` leaves the sheet unsaved as far as the client knows: the next save creates another. */
  lemma SaveWithoutIdPostsAgain(a: App, status: int)
    requires !Truthy(a.currentSheetId) && IsOk(status)
    ensures var r := SaveReply(a, SendSave(a), Received(Response(status, Record(Undefined))));
            SaveSpreadsheetRequest(r).verb == POST
  {
  }

  /**
   * The request `saveClient` sends: a PUT to the client's path when the
   * hidden id field is non-empty, a POST to the collection otherwise.
   */
  function SaveClientRequest(a: App, clientId: string, form: ClientForm): (q: Request)
    ensures q.verb == PUT <==> clientId != ""
    ensures q.verb == POST <==> clientId == ""
    ensures q.verb == PUT ==> q.path == "/clients/" + clientId
    ensures q.verb == POST ==> q.path == "/clients"
    ensures q.payload == ClientPayload(form) && q.authorization == BearerHeader(a)
  {
    var verb := if clientId != "" then PUT else POST;
    var path := if clientId != "" then "/clients/" + clientId else "/clients";
    Request(verb, path, BearerHeader(a), ClientPayload(form))
  }

  /** `saveClient` once the request has settled: only a 401 changes the controller state. */
  function SaveClient(a: App, fetched: Fetched): (r: App)
    ensures fetched.Received? && fetched.response.status == 401 ==> r == Logout(a)
    ensures !(fetched.Received? && fetched.response.status == 401) ==> r == a
  {
    ApiCall(a, fetched).0
  }
}

=== FILE: wrappers.dfy ===
/** Optional values and results shared by the rest of the model. */
module Wrappers {

  /** A value that may be absent: `undefined`, a hole of a sparse array, or NaN. */
  datatype Option<+T> = None | Some(value: T)

  /** The outcome of an operation that may throw. */
  datatype Result<+R, +E> = Success(value: R) | Failure(error: E)
}
